=== FILE: README.md ===
# Snake grid engine, observer broadcast and session server — a Dafny model

The game is a multiplayer snake-like grid game. One server process owns an
N×N board of empty squares, obstacles and decaying player trails. Clients
shake hands with the server to learn the board configuration and a push port.
They spawn and move players through requests, and every spawn or move is
pushed to every other registered client.

This project models three parts of that system as pure functions over
immutable state:

- **The grid engine** (`GameController`, `MapCell`, `ObstacleCell` and `Player`
  in gamecontroller.py), in module `Grid`. It covers:
  - move legality and the list of possible moves;
  - spawning at a given point, and moving;
  - trail decay when the turn advances;
  - elimination of players with nowhere left to go.

  `GridProperties` proves facts that relate several engine operations.
- **The player text form** (`Player.encode` / `Player.decode`), in module
  `PlayerCodec`. It rests on a small string module, `Text`.
- **The observer broadcast rule** (`Observer` in networking.py and
  `ObserverGameController` in gamecontroller.py), in modules `Networking` and
  `ObserverGame`. Sending is represented as the list of deliveries an operation
  produces, in order: which observer, which sender, which message.
- **The session registry and request dispatch** of server.py, in module
  `Server`. `handle_client` becomes one atomic `Step` from a server state and a
  request to the next state, the reply, and the pushes sent meanwhile.

Behaviour the model keeps because the code has it:

- `move_player` validates nothing. It overwrites the target cell whatever the
  cell holds. The only guard is the client calling `player_can_move_to` first.
- A player's own trail is not a square it may move to.
- If a move completes the turn, the cell the move has just written is decayed
  in the same call. So with lifetime 3, a lone player's new cell shows 2
  (`SoleMoverFreshCellDecaysAtOnce`).
- The `_game_over` flag is never set: `move_player` only calls the getter
  `is_game_over`.
- `check_game_over_for_players` removes players from the list it is
  iterating. After each removal, the following player is never examined
  and stays (`SweepKeepsPlayerAfterRemovedOne`, with a concrete case in
  `SweepSkipsPlayerAfterRemovedOne`). When no two stuck players are
  neighbours in the list, the sweep removes exactly the stuck players
  (`SweepIsFilterWhenSeparated`).
- The server moves a freshly decoded copy of the player. `move_player`
  writes its turn count and position to that copy only, so the server's own
  list keeps each player as it was spawned. The copy takes the listed
  player's position. When every listed player is behind the current turn,
  the server's turn advances only once the list is empty
  (`CopiedMoveAdvancesTurnOnlyWhenListEmpties`). The client passes its own
  listed object instead, and the `aliased` flag of `MovePlayer` selects
  between the two.
- The server's `move` always applies point (0, 1), whatever the request asks.
- A handshake from a source already registered registers it again, on a new
  port. Nothing is deduplicated.
- There is no state machine for handshake, then spawn, then move: any request
  is dispatched in any order.
- A spawn on a full board of positive size never returns: the random search
  for a spawn point loops forever without yielding to the event loop, so the
  whole server stops answering, every client included (`NoProgress`, and the
  `frozen` flag of `Server`; `FullBoardSpawnFreezesServer`). On a board of
  size 0 the first random draw raises instead, so that spawn gets no reply
  but the server goes on (`ZeroBoardSpawnRaises`).
- A move that the engine cannot apply raises before any reply is written
  (`NoReply`). This happens when the name is not listed, or when the board is
  too small to hold (0, 1). It is not reported as an illegal move.

## Model

| member | source | states |
|---|---|---|
| Text.Split | gamecontroller.py:266 | splitting on one character gives at least one piece, no piece contains the separator, and text without the separator is a single piece |
| Text.ParseIntOfIntToString | gamecontroller.py:270 | `int()` applied to the decimal text of an integer gives that integer back |
| PlayerCodec.ParsePositionOfFormatPosition | gamecontroller.py:269 | reading back the text form of a position (`None` or `(x, y)`) gives the same position |
| PlayerCodec.Encode | gamecontroller.py:262-263 | when name and id hold no colon, the text splits at the colons into exactly the name, the position text, the turn count text and the id |
| PlayerCodec.Decode | gamecontroller.py:265-271 | a player is produced iff there are at least four colon-separated pieces whose second reads as a position and whose third reads as an integer; its name is the first piece, its position the second read back, its turn count the third read back and its id the fourth; later pieces are ignored |
| PlayerCodec.DecodeEncode | gamecontroller.py:262-271 | decoding an encoded player gives the same player (name, position, turn count, id) when name and id contain no colon |
| PlayerCodec.NameWithColonFailsToDecode | gamecontroller.py:263-270 | every player whose name holds exactly one colon fails to decode, whatever follows the colon: the turn count is read from the text of the real position, which `int()` never accepts |
| PlayerCodec.NameWithColonIsTruncated | gamecontroller.py:263-271 | for a name `a:b:c` whose `b` reads as a position and `c` as an integer, decoding succeeds with the name cut to `a`, `b` and `c` taken as position and turn count, and the text of the real position taken as the id |
| Grid.EmptyBoard | gamecontroller.py:90-91 | the reset map is N×N and every square is empty |
| Grid.Fresh | gamecontroller.py:10-20 | a new game has turn 1, no players, an all-empty N×N board, and is not over |
| Grid.PointIsMovable | gamecontroller.py:28-45 | a point is movable iff it is in bounds, at Chebyshev distance at most 1 from the player, and empty; obstacles and every trail, the player's own included, are never movable |
| Grid.PlayerCanMoveTo | gamecontroller.py:25-36 | a player that has moved this turn (`lastTurnMoved >= turn`) can move nowhere; otherwise exactly the movable points are allowed |
| Grid.Neighbourhood | gamecontroller.py:119-123 | the nine candidate points are exactly those within Chebyshev distance 1 of the player |
| Grid.GetPossibleMoves | gamecontroller.py:118-126 | the possible moves are exactly the movable points, at most nine, and the list is empty iff the player can move nowhere |
| Grid.MoveTo | gamecontroller.py:254-260 | the player is at the new position; with a used turn it counts as having moved in every turn up to its old count plus one, otherwise its moved-status is unchanged |
| Grid.FindByName | gamecontroller.py:77-82 | the first listed player carrying the name is found, and None means no listed player carries it |
| Grid.AllPlayersHaveMoved | gamecontroller.py:84-88 | true iff every listed player has moved in the given turn |
| Grid.ProgressTurn | gamecontroller.py:107-114 | every trail loses exactly one life and becomes empty at one or below, obstacles and empty squares stay, the turn rises by one, and nothing else changes |
| Grid.SpawnPlayer | gamecontroller.py:52-58 | the spawn square becomes a full-lifetime trail of the player, the player is appended with that position and an unchanged turn count, and no other square changes |
| Grid.CheckGameOverForPlayer | gamecontroller.py:138-143 | the player is removed, and a loss reported, iff it has no possible move |
| Grid.SweepFrom | gamecontroller.py:131-136 | every player left was in the input and is placed, the list is no longer than the input, and the part of the list before the start index is preserved |
| Grid.SweepFromRemovesOnLoss | gamecontroller.py:131-143 | the sweep removes somebody exactly when it reports a loss, and without a loss the list comes back unchanged |
| Grid.SweepFromKeepsMovablePlayers | gamecontroller.py:133-135 | a player with a possible move is never removed |
| Grid.SweepFromReportsLoss | gamecontroller.py:131-136 | a loss is reported iff some player from the start index on has no possible move |
| Grid.CheckGameOverForPlayers | gamecontroller.py:131-136 | remaining players are a subset of the list, every player with a move stays, every removed player had none, a loss is reported iff some player has no move, a reported loss removes somebody, and without one the list is unchanged |
| Grid.MarkMove | gamecontroller.py:69-71 | the target square becomes a full-lifetime trail, the caller's player is at the target with one more turn used, and the listed entry changes only when it is the caller's own object |
| Grid.SettleMove | gamecontroller.py:72-75 | the players left are those the elimination sweep keeps, and the turn advances, ticking every square, exactly when every remaining player has moved |
| Grid.MovePlayer | gamecontroller.py:66-75 | nothing happens when the game is over; otherwise the target is overwritten, the player moves using a turn, the player list becomes what the elimination sweep leaves of the marked list, the turn advances (and ticks every square, the new one included) iff every remaining player has moved, the game stays valid and is never marked over |
| GridProperties.SweepIsFilterWhenSeparated | gamecontroller.py:131-143 | when no two stuck players are adjacent in the list, the sweep removes exactly the players without a move |
| GridProperties.SweepFromIsFilterWhenSeparated | gamecontroller.py:131-143 | the same from any start index: the visited prefix is kept and the rest is filtered |
| GridProperties.SweepFromAfterRemoval | gamecontroller.py:133-142 | after removing a stuck player at index `i`, the sweep goes on at index `i + 1` of the shortened list |
| GridProperties.SweepKeepsPlayerAfterRemovedOne | gamecontroller.py:133-142 | the player listed right after a removed one is never examined and stays, whether or not it has a move |
| GridProperties.SweepSkipsPlayerAfterRemovedOne | gamecontroller.py:133-142 | with two walled-in players listed in a row, only the first is removed and the second stays although it has no move |
| GridProperties.GuardedMoveClaimsOnlyEmptyCell | client.py:80-81 | a move that `player_can_move_to` allowed writes to an empty square, and every non-empty square is kept or only decayed |
| GridProperties.MoveUsesUpTurn | gamecontroller.py:254-260 | after moving, a player one turn behind cannot move again until the turn advances |
| GridProperties.LaggingPlayerMovesTwice | gamecontroller.py:35-36 | a player more than one turn behind may move again within the same turn |
| GridProperties.CopiedMoveAdvancesTurnOnlyWhenListEmpties | gamecontroller.py:69-75 | a move with a copy of the player leaves the listed entries alone, so when they are all behind, the turn advances iff the list has emptied |
| GridProperties.SoleMoverFreshCellDecaysAtOnce | gamecontroller.py:70-75 | the only player, moving in its turn, completes the turn, and its new square shows the lifetime minus one |
| GridProperties.SpawnKeepsTrailsBounded | gamecontroller.py:52-58 | spawning keeps every trail's remaining life within the configured lifetime |
| GridProperties.MoveKeepsTrailsBounded | gamecontroller.py:66-75 | moving keeps every trail's remaining life within the configured lifetime |
| GridProperties.ProgressTurnKeepsTrailsBounded | gamecontroller.py:214-218 | decay keeps every trail's remaining life within the configured lifetime |
| Networking.NewObserver | networking.py:7-13 | an observer keeps its id and uses the given sender, or a TCP sender to the given host and port |
| Networking.SetSender | networking.py:15-16 | only the sender is replaced |
| Networking.PrepareData | networking.py:23-25 | the message gains "source" set to the text of the observer's id and every other key is unchanged |
| Networking.PrepareDataIdempotent | networking.py:23-25 | stamping a message twice equals stamping it once |
| Networking.Update | networking.py:18-21 | nothing is sent iff the source equals the observer's id; otherwise exactly one stamped message goes through the observer's sender |
| Networking.UpdateUsesLatestSender | networking.py:15-21 | after `set_sender`, every message goes through the new sender and whether one is sent is unchanged |
| Networking.UuidObserverAlwaysSends | networking.py:8-20 | an observer whose id is a UUID sends even to a source equal to the text of that UUID |
| Networking.Notify | gamecontroller.py:201-203 | every non-originating observer receives its stamped message, no originator receives anything, and nothing else is sent |
| Networking.NotifyConcat | gamecontroller.py:201-203 | notifying a list is notifying its parts in order |
| ObserverGame.NewController | gamecontroller.py:155-157 | a new controller has a fresh game and no observers |
| ObserverGame.AddObserver | gamecontroller.py:159-160 | the observer is appended, duplicates allowed, and the game is unchanged |
| ObserverGame.GetConfig | gamecontroller.py:162-167 | the configuration is the game's size, lifetime and obstacle list |
| ObserverGame.PlaceObstacles | gamecontroller.py:175-179 | each listed point becomes an obstacle and every other square is kept |
| ObserverGame.LoadConfigFromData | gamecontroller.py:169-179 | size, lifetime and obstacles are replaced, the board holds exactly the listed obstacles, and players, turn and observers are kept |
| ObserverGame.GetConfigAfterLoad | gamecontroller.py:162-179 | reading back a loaded configuration gives the same configuration |
| ObserverGame.GetStateData | gamecontroller.py:192-199 | the state record holds the action, the encoded player and, when given, the point, and nothing else |
| ObserverGame.SpawnPlayer | gamecontroller.py:181-185 | the engine spawn happens first, then a "spawn" record of the placed player is offered to the observers with the original source |
| ObserverGame.MovePlayer | gamecontroller.py:187-190 | the engine move happens first, then a "move" record with the point is offered to the observers, even when the game is over |
| ObserverGame.SpawnUpdateReachesOthers | gamecontroller.py:181-203 | every non-originating observer is sent the spawn through its own sender, stamped with its id, and the player in it decodes to the spawned player |
| ObserverGame.MoveUpdateReachesOthers | gamecontroller.py:187-203 | every non-originating observer is sent the move with its point, stamped with its id, and the player in it decodes to the moved player |
| Server.Init | server.py:7-17 | the server starts unfrozen with no clients, no observers, the port counter at 9000, and a fresh game (turn 1, no players, not over) whose board holds exactly the configured obstacles |
| Server.GetNextClientPort | server.py:68-71 | the counter rises by exactly one and the port handed out is its new value |
| Server.AddClient | server.py:61-64 | exactly one observer, named by the source and at the next port, and the source itself are appended |
| Server.GetHandshakeConfig | server.py:74-77 | the reply is the configuration plus the current counter |
| Server.Step | server.py:27-57 | the dispatch of one request: a handshake registers and replies with the config and the new port; a spawn or move delegates to the controller (a move always to (0, 1)) or fails without reply, a spawn on a size-0 board included; a spawn on a full board of positive size freezes the server, and a frozen server answers nothing and changes nothing; "test" echoes the request; an action outside those four answers "good"; the game-over flag never changes |
| Server.FullBoardSpawnFreezesServer | gamecontroller.py:52-64 | a spawn on a full board of positive size gets no answer and pushes nothing, and any later request, a handshake included, is not answered either |
| Server.ZeroBoardSpawnRaises | gamecontroller.py:98-101 | on a board of size 0 a spawn raises at the random draw: no reply, nothing changes, and the next handshake is answered as usual |
| Server.InitSatisfiesInv | server.py:11-15 | the starting server satisfies the registry invariant |
| Server.StepPreservesInv | server.py:36-52 | every request keeps the board valid, the game not over, and observers matching clients with strictly increasing ports above 9000 |
| Server.PushPortsDistinct | server.py:68-71 | registered push ports are pairwise distinct and never the server's own port 9000 |
| Server.HandshakePortIsFresh | server.py:37-41 | on a server that is not frozen, a handshake appends one observer whose port is the replied port, above every earlier port and not 9000 |
| Server.FirstClientGetsPort9001 | server.py:15 | the first handshake is answered with the configuration and port 9001 |
| Server.RepeatedHandshakeRegistersTwice | server.py:61-64 | on a server that is not frozen, two handshakes from one source register it twice, on two different ports |
| Server.MoveIgnoresTarget | server.py:47-50 | the reply and effect of a move do not depend on the requested target |
| Server.MovePushedToOthersOnly | server.py:47-50 | on a server that is not frozen, a handled move answers "good" and is pushed to every client other than the source, never to the source |
| Server.ServerMoveLeavesListedPlayersAsSpawned | server.py:48-50 | after a server move, every listed player is one that was listed before, unchanged |

## Left out

- Randomness. `get_random_point`, `add_obstacles`, `get_random_move` and uuid generation are not modelled. Ids are always given, and the board is built from a given obstacle list through `load_config_from_data`.
- `get_open_spawn_point` is the `pick` argument of `Server.Step`. It must be an empty square whenever one exists. On a full board of positive size the search never ends and the event loop is blocked for good, which `Server.Step` models as the `frozen` state. On a board of size 0 `random.randint(0, -1)` raises, which is `NoReply`.
- Configuration loading from config.ini. Map size and cell lifetime are parameters.
- The memory report and every `print`. They are logging only.
- `TCPSender` and the asyncio socket plumbing: connections, 255-byte reads, the reply an observer's client sends back. A send is a `Delivery` entry.
- Failed connections are not modelled. In the code, an exception in one send aborts the rest of `notify_observers`.
- `ast.literal_eval` of requests. A request arrives already split into action, source and payload.
- A request missing a key (a `KeyError`) is not modelled.
- async interleaving. Each handler call is one atomic step.
- util.py is not part of this model. `PlayerCodec.ParsePosition` stands in for `util.get_tuple_from_string`. It reads `None` and every `(x, y)` form whose two parts are an optional minus sign followed by decimal digits (so `(01, -0)` too), a superset of the text `str()` writes for a position.
- `int()` is modelled only on an optional minus sign followed by digits. Whitespace, `+` and underscores are not accepted.
- Python's negative indexing: obstacle, spawn and move points are in bounds by precondition or by the `NoReply` case.
- `list.remove` is modelled as removing the visited entry. `Player` defines no equality of its own, so Python removes the first entry that is the same object. The two differ only when one object is listed twice and an earlier listing of it was skipped; the server never lists one object twice, since every spawn decodes a new one.
- `has_player_lost`, `check_game_over`, `get_map`, `get_obstacles` and `is_game_over` are getters or unused. `check_game_over` is never called.
- graphicscontroller.py and client.py. The client's move guard is used only as the precondition of `GuardedMoveClaimsOnlyEmptyCell`.
- `Observer.update` returns the client's reply to the send. Replies are not modelled.
- Grid.MovePlayer: requires the player's name to be listed and the target in bounds. The code raises otherwise, and `Server.Step` models that raise as `NoReply`.

=== FILE: codec.dfy ===
/** `Player.encode` and `Player.decode`: the colon-separated text form a player
    travels in between client and server. */
module PlayerCodec {
  import opened Optional
  import opened Text
  import opened Grid

  /** Python's `str()` of a position: `None`, or a tuple such as `(3, -1)`. */
  function FormatPosition(position: Option<Point>): (s: string)
    ensures ':' !in s
  {
    match position
    case None => "None"
    case Some(p) =>
      var s := "(" + IntToString(p.x) + ", " + IntToString(p.y) + ")";
      assert forall k :: 0 <= k < |s| ==> s[k] != ':';
      s
  }

  /** The tuple reader the decoder uses. The repository's own reader lives in
      util.py, which is not part of this model. This one accepts `None` and
      every `(x, y)` form whose two parts are an optional minus sign followed by
      decimal digits, such as `(01, -0)`: a superset of what `FormatPosition` writes. */
  function ParsePosition(s: string): (r: Option<Option<Point>>)
  {
    if s == "None" then Some(None)
    else if |s| < 2 || s[0] != '(' || s[|s| - 1] != ')' then None
    else
      var parts := Split(s[1..|s| - 1], ',');
      if |parts| != 2 || |parts[1]| == 0 || parts[1][0] != ' ' then None
      else
        match (ParseInt(parts[0]), ParseInt(parts[1][1..]))
        case (Some(x), Some(y)) => Some(Some(Point(x, y)))
        case _ => None
  }

  lemma ParsePositionOfFormatPosition(position: Option<Point>)
    ensures ParsePosition(FormatPosition(position)) == Some(position)
  {
    if position.Some? {
      var p := position.value;
      FormattedPointPieces(p);
      ParseIntOfIntToString(p.x);
      ParseIntOfIntToString(p.y);
    }
  }

  /** The text of a point is bracketed, is not `None`, and its inside splits
      at the comma into the two coordinates, the second after a space. */
  lemma FormattedPointPieces(p: Point)
    ensures var s := FormatPosition(Some(p));
      && s != "None" && |s| >= 2 && s[0] == '(' && s[|s| - 1] == ')'
      && Split(s[1..|s| - 1], ',') == [IntToString(p.x), " " + IntToString(p.y)]
  {
    var xs := IntToString(p.x);
    var ys := " " + IntToString(p.y);
    var inner := xs + [','] + ys;
    var s := FormatPosition(Some(p));
    assert s == "(" + inner + ")";
    assert s[1..|s| - 1] == inner;
    assert s != "None" by {
      assert s[0] != "None"[0];
    }
    assert Split(inner, ',') == [xs, ys] by {
      assert forall k :: 0 <= k < |xs| ==> xs[k] != ',';
      assert forall k :: 0 <= k < |ys| ==> ys[k] != ',';
      SplitAtFirst(xs, ',', ys);
    }
  }

  /** `encode`: `name:position:lastTurnMoved:id`. When name and id hold no
      colon, the colons split the text back into exactly those four fields. */
  function Encode(p: Player): (s: string)
    ensures ':' !in p.name && ':' !in p.id ==>
      Split(s, ':') == [p.name, FormatPosition(p.position), IntToString(p.lastTurnMoved), p.id]
  {
    var pos := FormatPosition(p.position);
    var turn := IntToString(p.lastTurnMoved);
    var s := p.name + ":" + pos + ":" + turn + ":" + p.id;
    assert s == p.name + [':'] + (pos + [':'] + (turn + [':'] + p.id));
    assert ':' !in turn by {
      assert forall k :: 0 <= k < |turn| ==> turn[k] != ':';
    }
    SplitFourFields(p.name, pos, turn, p.id);
    s
  }

  /** Four fields joined by colons split back into those fields, provided the
      first and last hold no colon (the middle two never do). */
  lemma SplitFourFields(name: string, pos: string, turn: string, id: string)
    requires ':' !in pos && ':' !in turn
    ensures ':' !in name && ':' !in id ==>
      Split(name + [':'] + (pos + [':'] + (turn + [':'] + id)), ':') == [name, pos, turn, id]
  {
    if ':' !in name && ':' !in id {
      var t2 := turn + [':'] + id;
      var t1 := pos + [':'] + t2;
      assert Split(t2, ':') == [turn, id] by {
        SplitAtFirst(turn, ':', id);
      }
      assert Split(t1, ':') == [pos, turn, id] by {
        SplitAtFirst(pos, ':', t2);
      }
      SplitAtFirst(name, ':', t1);
    }
  }

  /** `decode`: split at every colon and read the first four pieces; pieces
      after the fourth are ignored. Fewer than four pieces, an unreadable
      position or an unreadable turn number is the exception case (None). */
  function Decode(s: string): (r: Option<Player>)
    ensures r.Some? <==>
      var parts := Split(s, ':');
      |parts| >= 4 && ParsePosition(parts[1]).Some? && ParseInt(parts[2]).Some?
    ensures r.Some? ==>
      var parts := Split(s, ':');
      && r.value.name == parts[0] && r.value.id == parts[3]
      && Some(r.value.position) == ParsePosition(parts[1])
      && Some(r.value.lastTurnMoved) == ParseInt(parts[2])
  {
    var parts := Split(s, ':');
    if |parts| < 4 then None
    else
      match (ParsePosition(parts[1]), ParseInt(parts[2]))
      case (Some(position), Some(turn)) => Some(Player(parts[0], position, turn, parts[3]))
      case _ => None
  }

  /** Decoding an encoded player gives the same player back, provided its name
      and id contain no colon. */
  lemma DecodeEncode(p: Player)
    requires ':' !in p.name && ':' !in p.id
    ensures Decode(Encode(p)) == Some(p)
  {
    ParsePositionOfFormatPosition(p.position);
    ParseIntOfIntToString(p.lastTurnMoved);
  }

  /** A colon inside a name shifts every later field one piece to the right:
      for a name `a:b`, the turn count is read from the text of the real
      position, which is never an integer, so decoding always fails. */
  lemma NameWithColonFailsToDecode(p: Player, a: string, b: string)
    requires p.name == a + [':'] + b && ':' !in a && ':' !in b
    ensures Decode(Encode(p)) == None
  {
    EncodedPiecesAfterColonName(p, a, b);
    FormattedPositionIsNotInt(p.position);
  }

  /** The encoding of a player named `a:b` splits into `a`, `b`, and then the
      text of the real position. */
  lemma EncodedPiecesAfterColonName(p: Player, a: string, b: string)
    requires p.name == a + [':'] + b && ':' !in a && ':' !in b
    ensures var parts := Split(Encode(p), ':');
      |parts| >= 3 && parts[0] == a && parts[1] == b && parts[2] == FormatPosition(p.position)
  {
    var pos := FormatPosition(p.position);
    var turn := IntToString(p.lastTurnMoved);
    var x := pos + [':'] + (turn + [':'] + p.id);
    assert Encode(p) == a + [':'] + (b + [':'] + x) by {
      EncodeJoined(p);
      JoinAfterColon(a, b, x);
    }
    assert ':' !in turn by {
      assert forall k :: 0 <= k < |turn| ==> turn[k] != ':';
    }
    SplitFourPieces(a, b, pos, turn, p.id);
  }

  /** The encoding with its joins grouped from the right. */
  lemma EncodeJoined(p: Player)
    ensures Encode(p) ==
      p.name + [':'] + (FormatPosition(p.position) + [':'] + (IntToString(p.lastTurnMoved) + [':'] + p.id))
  {
  }

  lemma JoinAfterColon(a: string, b: string, x: string)
    ensures a + [':'] + b + [':'] + x == a + [':'] + (b + [':'] + x)
  {
  }

  /** The text of a position, `None` or `(x, y)`, never reads as an integer:
      it ends in a letter or a bracket, not a digit. */
  lemma FormattedPositionIsNotInt(position: Option<Point>)
    ensures ParseInt(FormatPosition(position)).None?
  {
    var s := FormatPosition(position);
    if position.Some? {
      FormattedPointPieces(position.value);
    }
    assert s[0] != '-' && !IsDigit(s[|s| - 1]);
    assert |s[1..]| == 0 || s[1..][|s[1..]| - 1] == s[|s| - 1];
  }

  /** When the text after the colons in a name `a:b:c` happens to read as a
      position and a turn count, decoding succeeds but the name is cut at the
      first colon, `b` and `c` become the position and turn count, and the
      text of the real position becomes the id. */
  lemma NameWithColonIsTruncated(p: Player, a: string, b: string, c: string)
    requires p.name == a + [':'] + b + [':'] + c && ':' !in a && ':' !in b && ':' !in c
    requires ParsePosition(b).Some? && ParseInt(c).Some?
    ensures Decode(Encode(p)) ==
      Some(Player(a, ParsePosition(b).value, ParseInt(c).value, FormatPosition(p.position)))
  {
    EncodedPiecesAfterTwoColonName(p, a, b, c);
  }

  /** The encoding of a player named `a:b:c` splits into `a`, `b`, `c`, and
      then the text of the real position. */
  lemma EncodedPiecesAfterTwoColonName(p: Player, a: string, b: string, c: string)
    requires p.name == a + [':'] + b + [':'] + c && ':' !in a && ':' !in b && ':' !in c
    ensures var parts := Split(Encode(p), ':');
      |parts| >= 4 && parts[0] == a && parts[1] == b && parts[2] == c
      && parts[3] == FormatPosition(p.position)
  {
    var pos := FormatPosition(p.position);
    var tail := IntToString(p.lastTurnMoved) + [':'] + p.id;
    var x := pos + [':'] + tail;
    assert Encode(p) == a + [':'] + (b + [':'] + (c + [':'] + x)) by {
      EncodeJoined(p);
      JoinAfterColon(a + [':'] + b, c, x);
      JoinAfterColon(a, b, c + [':'] + x);
    }
    SplitFourPieces(a, b, c, pos, tail);
  }

  /** The first four pieces of text made of four colon-free pieces, each
      followed by a colon. */
  lemma SplitFourPieces(a: string, b: string, c: string, d: string, rest: string)
    requires ':' !in a && ':' !in b && ':' !in c && ':' !in d
    ensures var parts := Split(a + [':'] + (b + [':'] + (c + [':'] + (d + [':'] + rest))), ':');
      |parts| >= 4 && parts[0] == a && parts[1] == b && parts[2] == c && parts[3] == d
  {
    var t3 := d + [':'] + rest;
    var t2 := c + [':'] + t3;
    var t1 := b + [':'] + t2;
    assert Split(a + [':'] + t1, ':') == [a] + Split(t1, ':') by {
      SplitAtFirst(a, ':', t1);
    }
    assert Split(t1, ':') == [b] + Split(t2, ':') by {
      SplitAtFirst(b, ':', t2);
    }
    assert Split(t2, ':') == [c] + Split(t3, ':') by {
      SplitAtFirst(c, ':', t3);
    }
    assert Split(t3, ':') == [d] + Split(rest, ':') by {
      SplitAtFirst(d, ':', rest);
    }
  }
}

=== FILE: grid.dfy ===
/** The turn-based grid engine of gamecontroller.py (class GameController and
    its cells and players): move legality, spawning, moving, trail decay and
    elimination of players that have nowhere left to go. */
module Grid {
  import opened Optional

  datatype Point = Point(x: int, y: int)

  /** A square of the board: `None` (Empty), an `ObstacleCell`, or a `MapCell`
      trail of a player that loses one life per turn. */
  datatype Cell = Empty | Obstacle | Trail(playerId: string, turnsLeft: int)

  /** A `Player`; `position` is None until the player is spawned. */
  datatype Player = Player(name: string, position: Option<Point>, lastTurnMoved: int, id: string)

  /** `board[x][y]`, indexed as `_map[x][y]` is. */
  type Board = seq<seq<Cell>>

  /** The fields of a `GameController` that the engine reads and writes. */
  datatype Game = Game(
    mapSize: nat,
    cellLifetime: int,
    turn: int,
    players: seq<Player>,
    board: Board,
    obstacles: seq<Point>,
    gameOver: bool)

  predicate IsSquare(b: Board, n: nat) {
    |b| == n && forall x :: 0 <= x < n ==> |b[x]| == n
  }

  predicate OnBoard(b: Board, p: Point) {
    0 <= p.x < |b| && 0 <= p.y < |b[p.x]|
  }

  /** The board is `mapSize` by `mapSize`. */
  predicate WellShaped(g: Game) {
    IsSquare(g.board, g.mapSize)
  }

  /** Every player in the list has been placed somewhere. */
  predicate Placed(ps: seq<Player>) {
    forall j :: 0 <= j < |ps| ==> ps[j].position.Some?
  }

  /** The board is square and every listed player has been placed. */
  predicate Valid(g: Game) {
    WellShaped(g) && Placed(g.players)
  }

  /** Every trail on the board has at most the configured lifetime left. */
  predicate TrailsBounded(g: Game)
    requires WellShaped(g)
  {
    forall x, y :: 0 <= x < g.mapSize && 0 <= y < g.mapSize && g.board[x][y].Trail? ==>
      g.board[x][y].turnsLeft <= g.cellLifetime
  }

  function Abs(n: int): nat {
    if n < 0 then -n else n
  }

  /** Chebyshev (king-move) distance between two points. */
  function Distance(a: Point, b: Point): nat {
    var dx := Abs(a.x - b.x);
    var dy := Abs(a.y - b.y);
    if dx < dy then dy else dx
  }

  // ---------------------------------------------------------------------------
  // Construction

  /** `reset_map`: an all-empty board of the given size. */
  function EmptyBoard(n: nat): (b: Board)
    ensures IsSquare(b, n)
    ensures forall x, y :: 0 <= x < n && 0 <= y < n ==> b[x][y] == Empty
  {
    seq(n, _ => seq(n, _ => Empty))
  }

  /** The state `GameController.__init__` leaves behind, with the map size and
      lifetime given directly instead of read from a configuration file, and
      without the randomly placed obstacles. */
  function Fresh(mapSize: nat, cellLifetime: int): (g: Game)
    ensures g.mapSize == mapSize && g.cellLifetime == cellLifetime
    ensures Valid(g) && g.turn == 1 && g.players == [] && !g.gameOver
    ensures forall x, y :: 0 <= x < mapSize && 0 <= y < mapSize ==> g.board[x][y] == Empty
  {
    Game(mapSize, cellLifetime, 1, [], EmptyBoard(mapSize), [], false)
  }

  /** `_map[p.x][p.y] = c`: one cell replaced, every other cell kept. */
  function SetCell(b: Board, p: Point, c: Cell): (r: Board)
    requires OnBoard(b, p)
    ensures |r| == |b|
    ensures forall x :: 0 <= x < |b| ==> |r[x]| == |b[x]|
    ensures r[p.x][p.y] == c
    ensures forall x, y :: 0 <= x < |b| && 0 <= y < |b[x]| && (x != p.x || y != p.y) ==> r[x][y] == b[x][y]
  {
    b[p.x := b[p.x][p.y := c]]
  }

  // ---------------------------------------------------------------------------
  // Move legality

  predicate PointIsInBounds(g: Game, x: int, y: int) {
    0 <= x < g.mapSize && 0 <= y < g.mapSize
  }

  predicate PointIsBesidePlayer(x: int, y: int, position: Point) {
    Abs(x - position.x) < 2 && Abs(y - position.y) < 2
  }

  predicate PointIsAvailable(g: Game, x: int, y: int)
    requires WellShaped(g) && PointIsInBounds(g, x, y)
  {
    g.board[x][y] == Empty
  }

  /** `point_is_movable`: in bounds, next to the player, and empty. The player's
      position is only read once the bounds test has passed. */
  function PointIsMovable(g: Game, q: Point, p: Player): (r: bool)
    requires WellShaped(g)
    requires PointIsInBounds(g, q.x, q.y) ==> p.position.Some?
    ensures r <==> PointIsInBounds(g, q.x, q.y) && Distance(q, p.position.value) <= 1 && g.board[q.x][q.y].Empty?
    ensures PointIsInBounds(g, q.x, q.y) && g.board[q.x][q.y].Obstacle? ==> !r
    ensures PointIsInBounds(g, q.x, q.y) && g.board[q.x][q.y].Trail? ==> !r
  {
    && PointIsInBounds(g, q.x, q.y)
    && PointIsBesidePlayer(q.x, q.y, p.position.value)
    && PointIsAvailable(g, q.x, q.y)
  }

  /** `has_moved_this_turn`. */
  predicate HasMovedThisTurn(p: Player, turn: int) {
    p.lastTurnMoved >= turn
  }

  /** `is_players_turn`. */
  predicate IsPlayersTurn(g: Game, p: Player) {
    !HasMovedThisTurn(p, g.turn)
  }

  /** `player_can_move_to`: the player's turn and a movable point. */
  function PlayerCanMoveTo(g: Game, q: Point, p: Player): (r: bool)
    requires WellShaped(g)
    requires IsPlayersTurn(g, p) && PointIsInBounds(g, q.x, q.y) ==> p.position.Some?
    ensures p.lastTurnMoved >= g.turn ==> !r
    ensures r <==> p.lastTurnMoved < g.turn && PointIsInBounds(g, q.x, q.y)
                   && Distance(q, p.position.value) <= 1 && g.board[q.x][q.y] == Empty
  {
    IsPlayersTurn(g, p) && PointIsMovable(g, q, p)
  }

  /** The 3x3 block around `c`, in the order `get_possible_moves` visits it
      (x offset outer, y offset inner, each from -1 to 1). */
  function Neighbourhood(c: Point): (r: seq<Point>)
    ensures forall q :: q in r <==> Distance(q, c) <= 1
  {
    [Point(c.x - 1, c.y - 1), Point(c.x - 1, c.y), Point(c.x - 1, c.y + 1),
     Point(c.x, c.y - 1), Point(c.x, c.y), Point(c.x, c.y + 1),
     Point(c.x + 1, c.y - 1), Point(c.x + 1, c.y), Point(c.x + 1, c.y + 1)]
  }

  /** The candidates, in order, that are movable for `p`. */
  function MovableAmong(g: Game, p: Player, candidates: seq<Point>): (r: seq<Point>)
    requires WellShaped(g) && p.position.Some?
    ensures |r| <= |candidates|
    ensures forall q :: q in r <==> q in candidates && PointIsMovable(g, q, p)
    decreases |candidates|
  {
    if |candidates| == 0 then []
    else
      var rest := MovableAmong(g, p, candidates[1..]);
      assert forall q :: q in candidates <==> q == candidates[0] || q in candidates[1..];
      if PointIsMovable(g, candidates[0], p) then [candidates[0]] + rest else rest
  }

  /** `get_possible_moves`: exactly the points the player may move to. */
  function GetPossibleMoves(g: Game, p: Player): (r: seq<Point>)
    requires WellShaped(g) && p.position.Some?
    ensures |r| <= 9
    ensures forall q :: q in r <==> PointIsMovable(g, q, p)
    ensures r == [] <==> HasNoMoves(g, p)
  {
    var r := MovableAmong(g, p, Neighbourhood(p.position.value));
    assert r != [] ==> r[0] in r;
    r
  }

  /** The player has no point at all that it may move to. */
  ghost predicate HasNoMoves(g: Game, p: Player)
    requires WellShaped(g) && p.position.Some?
  {
    forall q :: !PointIsMovable(g, q, p)
  }

  // ---------------------------------------------------------------------------
  // Players

  /** `Player.move_player`: the new position, and one more turn used when
      `useTurn` holds. */
  function MoveTo(p: Player, position: Point, useTurn: bool): (r: Player)
    ensures r.name == p.name && r.id == p.id && r.position == Some(position)
    ensures forall turn :: HasMovedThisTurn(r, turn) <==>
      (if useTurn then p.lastTurnMoved + 1 >= turn else HasMovedThisTurn(p, turn))
  {
    p.(position := Some(position), lastTurnMoved := if useTurn then p.lastTurnMoved + 1 else p.lastTurnMoved)
  }

  /** `get_player_from_list`: the index of the first listed player with that
      name, or None. */
  function FindByName(ps: seq<Player>, name: string): (r: Option<nat>)
    ensures r.Some? ==> r.value < |ps| && ps[r.value].name == name
    ensures r.Some? ==> forall j :: 0 <= j < r.value ==> ps[j].name != name
    ensures r.None? ==> forall j :: 0 <= j < |ps| ==> ps[j].name != name
    decreases |ps|
  {
    if |ps| == 0 then None
    else if ps[0].name == name then Some(0)
    else
      match FindByName(ps[1..], name)
      case None => None
      case Some(k) => Some(k + 1)
  }

  /** The player is the first listed one under its name. */
  predicate IsListedUnderName(g: Game, p: Player) {
    var k := FindByName(g.players, p.name);
    k.Some? && g.players[k.value] == p
  }

  /** `all_players_have_moved`: stops at the first player still to move. */
  function AllPlayersHaveMoved(ps: seq<Player>, turn: int): (r: bool)
    ensures r <==> forall i :: 0 <= i < |ps| ==> HasMovedThisTurn(ps[i], turn)
    decreases |ps|
  {
    if |ps| == 0 then true
    else if !HasMovedThisTurn(ps[0], turn) then false
    else AllPlayersHaveMoved(ps[1..], turn)
  }

  // ---------------------------------------------------------------------------
  // Turns

  /** `MapCell.progress_turn` followed by `is_cell_finished`; an obstacle is
      unaffected and an empty square stays empty. */
  function TickCell(c: Cell): Cell {
    match c
    case Empty => Empty
    case Obstacle => Obstacle
    case Trail(id, t) => if t - 1 <= 0 then Empty else Trail(id, t - 1)
  }

  function TickBoard(b: Board): (r: Board)
    ensures |r| == |b|
    ensures forall x :: 0 <= x < |b| ==> |r[x]| == |b[x]|
    ensures forall x, y :: 0 <= x < |b| && 0 <= y < |b[x]| ==> r[x][y] == TickCell(b[x][y])
  {
    seq(|b|, x requires 0 <= x < |b| => seq(|b[x]|, y requires 0 <= y < |b[x]| => TickCell(b[x][y])))
  }

  /** `progress_turn`: every trail loses exactly one life and disappears at
      zero or below; obstacles and empty squares stay; the turn advances. */
  function ProgressTurn(g: Game): (r: Game)
    requires WellShaped(g)
    ensures WellShaped(r) && r.turn == g.turn + 1
    ensures r == g.(board := r.board, turn := r.turn)
    ensures forall x, y :: 0 <= x < g.mapSize && 0 <= y < g.mapSize ==>
      match g.board[x][y]
      case Empty => r.board[x][y] == Empty
      case Obstacle => r.board[x][y] == Obstacle
      case Trail(id, t) => r.board[x][y] == (if t <= 1 then Empty else Trail(id, t - 1))
  {
    g.(board := TickBoard(g.board), turn := g.turn + 1)
  }

  // ---------------------------------------------------------------------------
  // Spawning and moving

  /** `spawn_player` with an explicit point: the cell is overwritten with a
      full-lifetime trail, the player is appended and placed, and no turn is
      used. */
  function SpawnPlayer(g: Game, p: Player, point: Point): (r: (Game, Player))
    requires WellShaped(g) && PointIsInBounds(g, point.x, point.y)
    ensures r.1 == p.(position := Some(point))
    ensures r.0 == g.(board := r.0.board, players := g.players + [r.1])
    ensures WellShaped(r.0)
    ensures r.0.board[point.x][point.y] == Trail(p.id, g.cellLifetime)
    ensures forall x, y :: 0 <= x < g.mapSize && 0 <= y < g.mapSize && Point(x, y) != point ==>
      r.0.board[x][y] == g.board[x][y]
  {
    var p' := MoveTo(p, point, false);
    (g.(board := SetCell(g.board, point, Trail(p.id, g.cellLifetime)), players := g.players + [p']), p')
  }

  /** `check_game_over_for_player` for the player at index `i`: removed from
      the list exactly when it has no possible move. */
  function CheckGameOverForPlayer(g: Game, ps: seq<Player>, i: nat): (r: (seq<Player>, bool))
    requires WellShaped(g) && i < |ps| && ps[i].position.Some?
    ensures r.1 <==> HasNoMoves(g, ps[i])
    ensures r.1 ==> r.0 == ps[..i] + ps[i + 1..]
    ensures !r.1 ==> r.0 == ps
  {
    if |GetPossibleMoves(g, ps[i])| > 0 then (ps, false)
    else (ps[..i] + ps[i + 1..], true)
  }

  /** The loop of `check_game_over_for_players` from index `i` on. It removes
      from the list it iterates, so after each removal the following player
      moves into the slot just visited and is never examined. */
  function SweepFrom(g: Game, ps: seq<Player>, i: nat): (r: (seq<Player>, bool))
    requires WellShaped(g)
    requires Placed(ps)
    ensures forall q :: q in r.0 ==> q in ps
    ensures Placed(r.0)
    ensures |r.0| <= |ps|
    ensures i <= |ps| ==> |r.0| >= i && r.0[..i] == ps[..i]
    decreases |ps| - i
  {
    if i >= |ps| then (ps, false)
    else
      var (ps', lost) := CheckGameOverForPlayer(g, ps, i);
      if !lost then
        var r := SweepFrom(g, ps, i + 1);
        assert ps[..i + 1][..i] == ps[..i];
        r
      else
      assert forall q :: q in ps' ==> q in ps;
      assert ps'[..i] == ps[..i];
      assert forall j :: i + 1 <= j < |ps| ==> ps[j] == ps'[j - 1];
      var r := SweepFrom(g, ps', i + 1);
      assert i <= |ps'| && |r.0| >= i by {
        if i + 1 <= |ps'| {
          assert r.0[..i] == r.0[..i + 1][..i];
        }
      }
      (r.0, true)
  }

  /** A player with a move left is never removed by the sweep. */
  lemma {:induction false} SweepFromKeepsMovablePlayers(g: Game, ps: seq<Player>, i: nat)
    requires WellShaped(g)
    requires Placed(ps)
    ensures forall j :: i <= j < |ps| && !HasNoMoves(g, ps[j]) ==> ps[j] in SweepFrom(g, ps, i).0
    decreases |ps| - i
  {
    if i < |ps| {
      var r := SweepFrom(g, ps, i);
      if !HasNoMoves(g, ps[i]) {
        SweepFromKeepsMovablePlayers(g, ps, i + 1);
        assert ps[i] == ps[..i + 1][i];
        assert ps[i] in r.0[..i + 1];
      } else {
        var ps' := ps[..i] + ps[i + 1..];
        assert forall q :: q in ps' ==> q in ps;
        SweepFromKeepsMovablePlayers(g, ps', i + 1);
        forall j | i <= j < |ps| && !HasNoMoves(g, ps[j])
          ensures ps[j] in r.0
        {
          assert j > i;
          if j == i + 1 {
            assert ps[j] == ps'[i] == r.0[..i + 1][i];
          } else {
            assert ps[j] == ps'[j - 1];
          }
        }
      }
    }
  }

  /** The sweep reports a loss exactly when some visited-or-later player has
      no move: the first such player is always reached. */
  lemma {:induction false} SweepFromReportsLoss(g: Game, ps: seq<Player>, i: nat)
    requires WellShaped(g)
    requires Placed(ps)
    ensures SweepFrom(g, ps, i).1 <==> exists j :: i <= j < |ps| && HasNoMoves(g, ps[j])
    decreases |ps| - i
  {
    if i < |ps| && !HasNoMoves(g, ps[i]) {
      SweepFromReportsLoss(g, ps, i + 1);
      if exists j :: i <= j < |ps| && HasNoMoves(g, ps[j]) {
        var j :| i <= j < |ps| && HasNoMoves(g, ps[j]);
        assert j != i;
      }
    }
  }

  /** The sweep removes somebody exactly when it reports a loss; without a
      loss the list comes back unchanged. */
  lemma {:induction false} SweepFromRemovesOnLoss(g: Game, ps: seq<Player>, i: nat)
    requires WellShaped(g)
    requires Placed(ps)
    ensures SweepFrom(g, ps, i).1 ==> |SweepFrom(g, ps, i).0| < |ps|
    ensures !SweepFrom(g, ps, i).1 ==> SweepFrom(g, ps, i).0 == ps
    decreases |ps| - i
  {
    if i < |ps| && !CheckGameOverForPlayer(g, ps, i).1 {
      SweepFromRemovesOnLoss(g, ps, i + 1);
    }
  }

  /** `check_game_over_for_players`: the remaining players, and whether some
      player was eliminated. */
  function CheckGameOverForPlayers(g: Game, ps: seq<Player>): (r: (seq<Player>, bool))
    requires WellShaped(g)
    requires Placed(ps)
    ensures forall q :: q in r.0 ==> q in ps
    ensures Placed(r.0)
    ensures forall q :: q in ps && !HasNoMoves(g, q) ==> q in r.0
    ensures forall q :: q in ps && q !in r.0 ==> HasNoMoves(g, q)
    ensures r.1 <==> exists q :: q in ps && HasNoMoves(g, q)
    ensures r.1 ==> |r.0| < |ps|
    ensures !r.1 ==> r.0 == ps
  {
    var r := SweepFrom(g, ps, 0);
    SweepFromKeepsMovablePlayers(g, ps, 0);
    SweepFromReportsLoss(g, ps, 0);
    SweepFromRemovesOnLoss(g, ps, 0);
    assert forall q :: q in ps ==> exists j :: 0 <= j < |ps| && ps[j] == q;
    r
  }

  /** Lines 69-71 of `move_player`: the caller's player takes the listed
      position, its id is written at the target, and it moves there using a
      turn. Only an aliased caller changes the listed entry. */
  function MarkMove(g: Game, point: Point, p: Player, aliased: bool): (r: (Game, Player))
    requires Valid(g)
    requires FindByName(g.players, p.name).Some? && PointIsInBounds(g, point.x, point.y)
    requires aliased ==> IsListedUnderName(g, p)
    ensures Valid(r.0)
    ensures r.1 == p.(position := Some(point), lastTurnMoved := p.lastTurnMoved + 1)
    ensures r.0 == g.(board := SetCell(g.board, point, Trail(p.id, g.cellLifetime)), players := r.0.players)
    ensures !aliased ==> r.0.players == g.players
    ensures aliased ==> r.0.players == g.players[FindByName(g.players, p.name).value := r.1]
  {
    var k := FindByName(g.players, p.name).value;
    var p1 := p.(position := g.players[k].position);
    var p2 := MoveTo(p1, point, true);
    var players1 := if aliased then g.players[k := p2] else g.players;
    (g.(board := SetCell(g.board, point, Trail(p1.id, g.cellLifetime)), players := players1), p2)
  }

  /** Lines 72-75 of `move_player`: the elimination sweep over the listed
      players, then a turn advance (ticking every square) exactly when every
      remaining player has moved. */
  function SettleMove(g: Game): (r: Game)
    requires Valid(g)
    ensures Valid(r)
    ensures r == g.(board := r.board, players := r.players, turn := r.turn)
    ensures r.players == CheckGameOverForPlayers(g, g.players).0
    ensures r.turn == (if AllPlayersHaveMoved(r.players, g.turn) then g.turn + 1 else g.turn)
    ensures forall x, y :: 0 <= x < g.mapSize && 0 <= y < g.mapSize ==>
      r.board[x][y] == if r.turn == g.turn + 1 then TickCell(g.board[x][y]) else g.board[x][y]
  {
    var (players, _) := CheckGameOverForPlayers(g, g.players);
    var g1 := g.(players := players);
    if AllPlayersHaveMoved(players, g.turn) then ProgressTurn(g1) else g1
  }

  /** The board after marking and settling: the target carries the mover's
      fresh trail, every other square is as before, and all of them are
      ticked when the turn advanced. */
  lemma MoveBoardAfterSettle(g: Game, point: Point, p: Player, aliased: bool)
    requires Valid(g)
    requires FindByName(g.players, p.name).Some? && PointIsInBounds(g, point.x, point.y)
    requires aliased ==> IsListedUnderName(g, p)
    ensures var r := SettleMove(MarkMove(g, point, p, aliased).0);
      forall x, y :: 0 <= x < g.mapSize && 0 <= y < g.mapSize ==>
        r.board[x][y] ==
          (var c := if x == point.x && y == point.y then Trail(p.id, g.cellLifetime) else g.board[x][y];
           if r.turn == g.turn + 1 then TickCell(c) else c)
  {
  }

  /** `move_player(point, player)`. `aliased` says whether the caller's player
      object is the listed one (the client's own player) or a separate copy
      that only shares its name (a player decoded from a request). Nothing is
      validated: the target cell is overwritten whatever it holds. */
  function MovePlayer(g: Game, point: Point, p: Player, aliased: bool): (r: (Game, Player))
    requires Valid(g)
    requires !g.gameOver ==> FindByName(g.players, p.name).Some? && PointIsInBounds(g, point.x, point.y)
    requires !g.gameOver && aliased ==> IsListedUnderName(g, p)
    ensures Valid(r.0)
    ensures g.gameOver ==> r == (g, p)
    ensures r.0 == g.(board := r.0.board, players := r.0.players, turn := r.0.turn)
    ensures !g.gameOver ==> r.1 == p.(position := Some(point), lastTurnMoved := p.lastTurnMoved + 1)
    ensures !g.gameOver ==>
      r.0.turn == (if AllPlayersHaveMoved(r.0.players, g.turn) then g.turn + 1 else g.turn)
    ensures !g.gameOver ==> forall x, y :: 0 <= x < g.mapSize && 0 <= y < g.mapSize ==>
      r.0.board[x][y] ==
        (var c := if x == point.x && y == point.y then Trail(p.id, g.cellLifetime) else g.board[x][y];
         if r.0.turn == g.turn + 1 then TickCell(c) else c)
    ensures !g.gameOver ==> forall q :: q in r.0.players ==> q in g.players || (aliased && q == r.1)
    ensures !g.gameOver ==>
      var g1 := MarkMove(g, point, p, aliased).0;
      r.0.players == CheckGameOverForPlayers(g1, g1.players).0
  {
    if g.gameOver then (g, p)
    else
      var (g1, p2) := MarkMove(g, point, p, aliased);
      assert forall q :: q in g1.players ==> q in g.players || (aliased && q == p2);
      MoveBoardAfterSettle(g, point, p, aliased);
      (SettleMove(g1), p2)
  }
}

=== FILE: grid_properties.dfy ===
/** Properties of the grid engine that relate several of its operations. */
module GridProperties {
  import opened Optional
  import opened Grid

  /** The elimination the sweep is meant to perform: every player without a
      move is dropped, every other player kept, in order. */
  ghost function WithoutStuck(g: Game, ps: seq<Player>): (r: seq<Player>)
    requires WellShaped(g)
    requires Placed(ps)
    decreases |ps|
  {
    if |ps| == 0 then []
    else
      var rest := WithoutStuck(g, ps[1..]);
      if HasNoMoves(g, ps[0]) then rest else [ps[0]] + rest
  }

  /** No two neighbouring entries from index `i` on are both without a move. */
  ghost predicate NoAdjacentStuck(g: Game, ps: seq<Player>, i: nat)
    requires WellShaped(g)
    requires Placed(ps)
  {
    forall j :: i <= j && j + 1 < |ps| ==> !(HasNoMoves(g, ps[j]) && HasNoMoves(g, ps[j + 1]))
  }

  /** One step of `WithoutStuck` on the suffix from `i`. */
  lemma WithoutStuckStep(g: Game, ps: seq<Player>, i: nat)
    requires WellShaped(g)
    requires Placed(ps)
    requires i < |ps|
    ensures WithoutStuck(g, ps[i..]) ==
      (if HasNoMoves(g, ps[i]) then [] else [ps[i]]) + WithoutStuck(g, ps[i + 1..])
  {
  }

  /** Removing the stuck player at `i` and going on at `i + 1`, in terms of the
      original list. */
  lemma SweepFromAfterRemoval(g: Game, ps: seq<Player>, i: nat)
    requires WellShaped(g)
    requires Placed(ps)
    requires i < |ps| && HasNoMoves(g, ps[i])
    ensures var ps' := ps[..i] + ps[i + 1..];
      (forall q :: q in ps' ==> q in ps) && SweepFrom(g, ps, i).0 == SweepFrom(g, ps', i + 1).0
  {
  }

  lemma NoAdjacentStuckAfterRemoval(g: Game, ps: seq<Player>, i: nat)
    requires WellShaped(g)
    requires Placed(ps)
    requires i < |ps| && NoAdjacentStuck(g, ps, i)
    ensures forall q :: q in ps[..i] + ps[i + 1..] ==> q in ps
    ensures Placed(ps[..i] + ps[i + 1..])
    ensures NoAdjacentStuck(g, ps[..i] + ps[i + 1..], i + 1)
  {
  }

  /** Under the restriction that no two stuck players are neighbours in the
      list, the sweep's skipping never matters and it removes exactly the
      stuck players. */
  lemma {:induction false} SweepFromIsFilterWhenSeparated(g: Game, ps: seq<Player>, i: nat)
    requires WellShaped(g)
    requires Placed(ps)
    requires i <= |ps|
    requires NoAdjacentStuck(g, ps, i)
    ensures SweepFrom(g, ps, i).0 == ps[..i] + WithoutStuck(g, ps[i..])
    decreases |ps| - i, 2
  {
    if i == |ps| {
      assert ps[..i] == ps;
    } else if !HasNoMoves(g, ps[i]) {
      SweepFilterKeepStep(g, ps, i);
    } else {
      SweepFilterRemoveStep(g, ps, i);
    }
  }

  /** The case of a player with a move left at `i`. */
  lemma {:induction false} SweepFilterKeepStep(g: Game, ps: seq<Player>, i: nat)
    requires WellShaped(g)
    requires Placed(ps)
    requires i < |ps| && !HasNoMoves(g, ps[i])
    requires NoAdjacentStuck(g, ps, i)
    ensures SweepFrom(g, ps, i).0 == ps[..i] + WithoutStuck(g, ps[i..])
    decreases |ps| - i, 1
  {
    SweepFromSkipsMovable(g, ps, i);
    SweepFromIsFilterWhenSeparated(g, ps, i + 1);
    WithoutStuckStep(g, ps, i);
    PrefixThenElement(ps, i, WithoutStuck(g, ps[i + 1..]));
  }

  lemma PrefixThenElement<T>(ps: seq<T>, i: nat, w: seq<T>)
    requires i < |ps|
    ensures ps[..i + 1] + w == ps[..i] + ([ps[i]] + w)
  {
    assert ps[..i + 1] == ps[..i] + [ps[i]];
  }

  /** A player with a move left is passed over: the sweep goes on at `i + 1`
      with the list unchanged. */
  lemma SweepFromSkipsMovable(g: Game, ps: seq<Player>, i: nat)
    requires WellShaped(g)
    requires Placed(ps)
    requires i < |ps| && !HasNoMoves(g, ps[i])
    ensures SweepFrom(g, ps, i).0 == SweepFrom(g, ps, i + 1).0
  {
  }

  /** The case of a stuck player at `i` that is not the last one; its
      successor has a move, by the restriction. */
  lemma {:induction false} SweepFilterRemoveStep(g: Game, ps: seq<Player>, i: nat)
    requires WellShaped(g)
    requires Placed(ps)
    requires i < |ps| && HasNoMoves(g, ps[i])
    requires NoAdjacentStuck(g, ps, i)
    ensures SweepFrom(g, ps, i).0 == ps[..i] + WithoutStuck(g, ps[i..])
    decreases |ps| - i, 1
  {
    var ps' := ps[..i] + ps[i + 1..];
    assert SweepFrom(g, ps, i).0 == SweepFrom(g, ps', i + 1).0 by {
      SweepFromAfterRemoval(g, ps, i);
    }
    if i + 1 < |ps| {
      SweepFilterRemoveBeforeMovable(g, ps, i);
    } else {
      WithoutStuckStep(g, ps, i);
      assert ps' == ps[..i];
      assert ps[i + 1..] == [];
    }
  }

  /** The removal case when a successor exists: it has a move, so the sweep
      on the shortened list keeps it and goes on filtering. */
  lemma {:induction false} SweepFilterRemoveBeforeMovable(g: Game, ps: seq<Player>, i: nat)
    requires WellShaped(g)
    requires Placed(ps)
    requires i + 1 < |ps| && HasNoMoves(g, ps[i])
    requires NoAdjacentStuck(g, ps, i)
    ensures SweepFrom(g, ps[..i] + ps[i + 1..], i + 1).0 == ps[..i] + WithoutStuck(g, ps[i..])
    decreases |ps| - i, 0
  {
    var ps' := ps[..i] + ps[i + 1..];
    assert Placed(ps') && SweepFrom(g, ps', i + 1).0 == ps'[..i + 1] + WithoutStuck(g, ps'[i + 1..]) by {
      NoAdjacentStuckAfterRemoval(g, ps, i);
      SweepFromIsFilterWhenSeparated(g, ps', i + 1);
    }
    assert WithoutStuck(g, ps[i..]) == [ps[i + 1]] + WithoutStuck(g, ps[i + 2..]) by {
      assert !HasNoMoves(g, ps[i + 1]);
      WithoutStuckStep(g, ps, i);
      WithoutStuckStep(g, ps, i + 1);
    }
    RemovalSlices(ps, i);
  }

  lemma RemovalSlices<T>(ps: seq<T>, i: nat)
    requires i + 1 < |ps|
    ensures (ps[..i] + ps[i + 1..])[..i + 1] == ps[..i] + [ps[i + 1]]
    ensures (ps[..i] + ps[i + 1..])[i + 1..] == ps[i + 2..]
  {
  }

  /** `check_game_over_for_players` removes exactly the stuck players when no
      two of them are neighbours in the list. */
  lemma SweepIsFilterWhenSeparated(g: Game, ps: seq<Player>)
    requires WellShaped(g)
    requires Placed(ps)
    requires NoAdjacentStuck(g, ps, 0)
    ensures CheckGameOverForPlayers(g, ps).0 == WithoutStuck(g, ps)
  {
    SweepFromIsFilterWhenSeparated(g, ps, 0);
    assert ps[..0] + WithoutStuck(g, ps[0..]) == WithoutStuck(g, ps) by {
      assert ps[0..] == ps;
    }
  }

  /** The iterator skip in general: when the player at `i` is removed, the
      player listed right after it is never examined and stays in the list,
      whether or not it has a move. */
  lemma SweepKeepsPlayerAfterRemovedOne(g: Game, ps: seq<Player>, i: nat)
    requires WellShaped(g)
    requires Placed(ps)
    requires i + 1 < |ps| && HasNoMoves(g, ps[i])
    ensures SweepFrom(g, ps, i).1
    ensures ps[i + 1] in SweepFrom(g, ps, i).0
  {
    var ps' := ps[..i] + ps[i + 1..];
    SweepFromAfterRemoval(g, ps, i);
    var r := SweepFrom(g, ps', i + 1).0;
    assert r[..i + 1] == ps'[..i + 1];
    assert ps[i + 1] == ps'[i] == r[i];
  }

  /** Two walled-in players listed one after the other: the sweep removes the
      first and never looks at the second, which stays in the game although it
      has no move either. */
  lemma SweepSkipsPlayerAfterRemovedOne()
    ensures
      var g := Game(1, 3, 1, [], [[Obstacle]], [], false);
      var a := Player("a", Some(Point(0, 0)), 0, "a");
      var b := Player("b", Some(Point(0, 0)), 0, "b");
      && HasNoMoves(g, a) && HasNoMoves(g, b)
      && CheckGameOverForPlayers(g, [a, b]) == ([b], true)
  {
  }

  /** A move that `player_can_move_to` allowed only claims an empty square:
      every trail and obstacle that was on the board is kept (decayed by one
      if the turn advanced), so no other player's live cell is lost. */
  lemma GuardedMoveClaimsOnlyEmptyCell(g: Game, point: Point, p: Player)
    requires Valid(g) && !g.gameOver && IsListedUnderName(g, p)
    requires PlayerCanMoveTo(g, point, p)
    ensures g.board[point.x][point.y] == Empty
    ensures var r := MovePlayer(g, point, p, true).0;
      forall x, y :: 0 <= x < g.mapSize && 0 <= y < g.mapSize && g.board[x][y] != Empty ==>
        r.board[x][y] == g.board[x][y] || r.board[x][y] == TickCell(g.board[x][y])
  {
  }

  /** A player whose last move was in the previous turn uses up its turn by
      moving: until the turn counter advances it cannot move again. */
  lemma MoveUsesUpTurn(g: Game, point: Point, p: Player)
    requires Valid(g) && !g.gameOver && IsListedUnderName(g, p)
    requires PointIsInBounds(g, point.x, point.y)
    requires p.lastTurnMoved == g.turn - 1
    ensures var (g', p') := MovePlayer(g, point, p, true);
      g'.turn == g.turn ==> forall q :: !PlayerCanMoveTo(g', q, p')
  {
  }

  /** A player that lags more than one turn behind (one spawned after play
      started keeps `lastTurnMoved` 0) may move again within the same turn. */
  lemma LaggingPlayerMovesTwice(g: Game, point: Point, p: Player)
    requires Valid(g) && !g.gameOver && IsListedUnderName(g, p)
    requires PointIsInBounds(g, point.x, point.y)
    requires p.lastTurnMoved < g.turn - 1
    ensures IsPlayersTurn(g, p)
    ensures var (g', p') := MovePlayer(g, point, p, true);
      g'.turn == g.turn ==> IsPlayersTurn(g', p')
  {
  }

  /** A move made with a separate copy of the player (the server's case)
      never updates a listed entry, so a list in which every player is behind
      the current turn stays behind it: the turn then advances only when the
      sweep has emptied the list, and the board's trails do not decay. */
  lemma CopiedMoveAdvancesTurnOnlyWhenListEmpties(g: Game, point: Point, p: Player)
    requires Valid(g) && !g.gameOver
    requires FindByName(g.players, p.name).Some? && PointIsInBounds(g, point.x, point.y)
    requires forall i :: 0 <= i < |g.players| ==> g.players[i].lastTurnMoved < g.turn
    ensures var r := MovePlayer(g, point, p, false).0;
      r.turn == g.turn + 1 <==> r.players == []
  {
  }

  /** When the mover is the only listed player and had not moved this turn,
      its move completes the turn, so the cell it has just claimed is ticked
      in the same call and shows one life less than the configured lifetime. */
  lemma SoleMoverFreshCellDecaysAtOnce(g: Game, point: Point, p: Player)
    requires Valid(g) && !g.gameOver && g.players == [p]
    requires PointIsInBounds(g, point.x, point.y)
    requires p.lastTurnMoved == g.turn - 1
    requires g.cellLifetime >= 2
    ensures var r := MovePlayer(g, point, p, true).0;
      r.turn == g.turn + 1 && r.board[point.x][point.y] == Trail(p.id, g.cellLifetime - 1)
  {
  }

  /** Spawning, moving and advancing the turn keep every trail's remaining
      lifetime within the configured lifetime. */
  lemma SpawnKeepsTrailsBounded(g: Game, point: Point, p: Player)
    requires WellShaped(g) && TrailsBounded(g) && PointIsInBounds(g, point.x, point.y)
    ensures TrailsBounded(SpawnPlayer(g, p, point).0)
  {
  }

  lemma MoveKeepsTrailsBounded(g: Game, point: Point, p: Player, aliased: bool)
    requires Valid(g) && TrailsBounded(g)
    requires !g.gameOver ==> FindByName(g.players, p.name).Some? && PointIsInBounds(g, point.x, point.y)
    requires !g.gameOver && aliased ==> IsListedUnderName(g, p)
    ensures TrailsBounded(MovePlayer(g, point, p, aliased).0)
  {
  }

  lemma ProgressTurnKeepsTrailsBounded(g: Game)
    requires WellShaped(g) && TrailsBounded(g)
    ensures TrailsBounded(ProgressTurn(g))
  {
  }
}

=== FILE: networking.dfy ===
/** The `Observer` of networking.py: it forwards a state update to its own
    client unless that client originated the change. Sending is represented by
    the list of deliveries an operation produces, in order. */
module Networking {
  import opened Optional
  import opened Grid

  /** The values a message dictionary holds here: text, or a point tuple. */
  datatype Value = Str(s: string) | Pos(p: Point)

  /** A message: the dictionary written to the wire. */
  type Message = map<string, Value>

  /** An observer's `_id`: either the client's source text (what the server
      registers) or a `uuid.UUID` object (what a client creates for itself),
      kept apart because Python never finds a UUID equal to a string. */
  datatype ObserverId = Named(text: string) | Uuid(canonical: string)

  /** `str(_id)`. */
  function IdToString(id: ObserverId): string {
    match id
    case Named(t) => t
    case Uuid(c) => c
  }

  /** A `TCPSender`: where the pushed update goes. */
  datatype Sender = TcpSender(host: string, port: int)

  datatype Observer = Observer(id: ObserverId, sender: Sender)

  /** One message handed to one observer's sender. */
  datatype Delivery = Delivery(observer: ObserverId, via: Sender, message: Message)

  /** `Observer(id, sender, port, host)`: without a sender, a TCP sender to
      `host:port` is made. The random id of an id-less observer is not part of
      this model, so the id is always given. */
  function NewObserver(id: ObserverId, sender: Option<Sender>, port: int, host: string): (o: Observer)
    ensures o.id == id
    ensures sender.Some? ==> o.sender == sender.value
    ensures sender.None? ==> o.sender.port == port && o.sender.host == host
  {
    Observer(id, if sender.Some? then sender.value else TcpSender(host, port))
  }

  /** `set_sender`: only the sender changes. */
  function SetSender(o: Observer, sender: Sender): (r: Observer)
    ensures r.id == o.id && r.sender == sender
  {
    o.(sender := sender)
  }

  /** `source == self._id`: the raw id is compared, so a UUID id never equals
      a textual source and `None` equals no id. */
  predicate IsOriginator(source: Option<string>, id: ObserverId) {
    source.Some? && id == Named(source.value)
  }

  /** `prepare_data`: stamps the message with `str(_id)` under "source". */
  function PrepareData(o: Observer, data: Message): (r: Message)
    ensures r.Keys == data.Keys + {"source"}
    ensures r["source"] == Str(IdToString(o.id))
    ensures forall k :: k in data && k != "source" ==> r[k] == data[k]
  {
    data["source" := Str(IdToString(o.id))]
  }

  /** What one observer sends for `update(state, source)`. */
  function Update(o: Observer, state: Message, source: Option<string>): (r: seq<Delivery>)
    ensures |r| <= 1
    ensures r == [] <==> IsOriginator(source, o.id)
    ensures r != [] ==> r[0].observer == o.id && r[0].via == o.sender
    ensures r != [] ==> r[0].message == PrepareData(o, state)
  {
    if IsOriginator(source, o.id) then [] else [Delivery(o.id, o.sender, PrepareData(o, state))]
  }

  /** The delivery `o` makes of `state` when it does send. */
  function DeliveryFor(o: Observer, state: Message): Delivery {
    Delivery(o.id, o.sender, PrepareData(o, state))
  }

  /** `notify_observers`: `update` on every observer, in list order. Each
      observer stamps the shared dictionary with its own id before sending, so
      every message carries its recipient's id as "source". */
  function Notify(observers: seq<Observer>, state: Message, source: Option<string>): (r: seq<Delivery>)
    ensures |r| <= |observers|
    ensures forall i :: 0 <= i < |observers| && !IsOriginator(source, observers[i].id) ==>
      DeliveryFor(observers[i], state) in r
    ensures forall d :: d in r ==> !IsOriginator(source, d.observer)
    ensures forall d :: d in r ==> exists i :: 0 <= i < |observers| && d == DeliveryFor(observers[i], state)
    decreases |observers|
  {
    if |observers| == 0 then []
    else
      var rest := Notify(observers[1..], state, source);
      assert forall i :: 1 <= i < |observers| ==> observers[i] == observers[1..][i - 1];
      Update(observers[0], state, source) + rest
  }

  /** Delivery follows the list: notifying a concatenation is notifying each
      part in turn. */
  lemma {:induction false} NotifyConcat(a: seq<Observer>, b: seq<Observer>, state: Message, source: Option<string>)
    ensures Notify(a + b, state, source) == Notify(a, state, source) + Notify(b, state, source)
    decreases |a|
  {
    if |a| > 0 {
      assert (a + b)[1..] == a[1..] + b;
      NotifyConcat(a[1..], b, state, source);
    } else {
      assert a + b == b;
    }
  }

  /** Stamping a message twice with the same observer is the same as once. */
  lemma PrepareDataIdempotent(o: Observer, data: Message)
    ensures PrepareData(o, PrepareData(o, data)) == PrepareData(o, data)
  {
  }

  /** After `set_sender`, updates go out through the new sender; whether the
      observer sends at all is unchanged. */
  lemma UpdateUsesLatestSender(o: Observer, sender: Sender, state: Message, source: Option<string>)
    ensures var r := Update(SetSender(o, sender), state, source);
      |r| == |Update(o, state, source)| && forall d :: d in r ==> d.via == sender
  {
  }

  /** A client-side observer holds a UUID, so even a source equal to the text
      of that UUID does not stop it from sending. */
  lemma UuidObserverAlwaysSends(o: Observer, state: Message)
    requires o.id.Uuid?
    ensures |Update(o, state, Some(IdToString(o.id)))| == 1
  {
  }
}

=== FILE: observer_game.dfy ===
/** `ObserverGameController`: the grid engine plus a list of observers that are
    told about every spawn and move, and the configuration exchange used by
    the handshake. */
module ObserverGame {
  import opened Optional
  import opened Grid
  import opened Networking
  import opened PlayerCodec

  /** What `get_config` returns and `load_config_from_data` reads. */
  datatype Config = Config(mapSize: nat, cellLifetime: int, obstacles: seq<Point>)

  datatype Controller = Controller(game: Game, observers: seq<Observer>)

  /** A controller just built: a fresh game and no observers. */
  function NewController(mapSize: nat, cellLifetime: int): (og: Controller)
    ensures og.observers == [] && og.game == Fresh(mapSize, cellLifetime)
  {
    Controller(Fresh(mapSize, cellLifetime), [])
  }

  /** `add_observer`: appended at the end, duplicates allowed. */
  function AddObserver(og: Controller, o: Observer): (r: Controller)
    ensures r.game == og.game && r.observers == og.observers + [o]
  {
    og.(observers := og.observers + [o])
  }

  /** `get_config`. */
  function GetConfig(og: Controller): (c: Config)
    ensures c.mapSize == og.game.mapSize && c.cellLifetime == og.game.cellLifetime
    ensures c.obstacles == og.game.obstacles
  {
    Config(og.game.mapSize, og.game.cellLifetime, og.game.obstacles)
  }

  predicate ObstaclesFit(obstacles: seq<Point>, n: nat) {
    forall i :: 0 <= i < |obstacles| ==> 0 <= obstacles[i].x < n && 0 <= obstacles[i].y < n
  }

  /** The loop of `load_obstacles`: each listed point becomes an obstacle,
      every other cell is kept. */
  function PlaceObstacles(b: Board, obstacles: seq<Point>): (r: Board)
    requires IsSquare(b, |b|) && ObstaclesFit(obstacles, |b|)
    ensures IsSquare(r, |b|)
    ensures forall x, y :: 0 <= x < |b| && 0 <= y < |b| ==>
      r[x][y] == if Point(x, y) in obstacles then Obstacle else b[x][y]
    decreases |obstacles|
  {
    if |obstacles| == 0 then b
    else
      var o := obstacles[0];
      var b' := SetCell(b, o, Obstacle);
      assert forall i :: 0 <= i < |obstacles| - 1 ==> obstacles[1..][i] == obstacles[i + 1];
      var r := PlaceObstacles(b', obstacles[1..]);
      assert forall q :: q in obstacles <==> q == o || q in obstacles[1..];
      r
  }

  /** `load_config_from_data`: new size and lifetime, a reset board holding
      exactly the given obstacles. Players, turn and observers are kept. */
  function LoadConfigFromData(og: Controller, data: Config): (r: Controller)
    requires ObstaclesFit(data.obstacles, data.mapSize)
    ensures r.observers == og.observers
    ensures r.game == og.game.(mapSize := data.mapSize, cellLifetime := data.cellLifetime,
                               obstacles := data.obstacles, board := r.game.board)
    ensures WellShaped(r.game)
    ensures forall x, y :: 0 <= x < data.mapSize && 0 <= y < data.mapSize ==>
      r.game.board[x][y] == if Point(x, y) in data.obstacles then Obstacle else Empty
  {
    var board := PlaceObstacles(EmptyBoard(data.mapSize), data.obstacles);
    og.(game := og.game.(mapSize := data.mapSize, cellLifetime := data.cellLifetime,
                         board := board, obstacles := data.obstacles))
  }

  /** `get_state_data`: the action, the encoded player, and the point when
      one is given. */
  function GetStateData(action: string, p: Player, point: Option<Point>): (m: Message)
    ensures m.Keys == {"action", "player"} + (if point.Some? then {"point"} else {})
    ensures m["action"] == Str(action) && m["player"] == Str(Encode(p))
    ensures point.Some? ==> m["point"] == Pos(point.value)
  {
    var m := map["action" := Str(action), "player" := Str(Encode(p))];
    if point.Some? then m["point" := Pos(point.value)] else m
  }

  /** `ObserverGameController.spawn_player` with a given point: the base
      spawn, then a "spawn" update offered to every observer in order. The
      point spawned at is returned unchanged. */
  function SpawnPlayer(og: Controller, p: Player, source: Option<string>, point: Point)
    : (r: (Controller, Player, seq<Delivery>))
    requires WellShaped(og.game) && PointIsInBounds(og.game, point.x, point.y)
    ensures (r.0.game, r.1) == Grid.SpawnPlayer(og.game, p, point)
    ensures r.0.observers == og.observers
    ensures r.2 == Notify(og.observers, GetStateData("spawn", r.1, None), source)
  {
    var (g, p') := Grid.SpawnPlayer(og.game, p, point);
    (og.(game := g), p', Notify(og.observers, GetStateData("spawn", p', None), source))
  }

  /** `ObserverGameController.move_player`: the base move, then a "move"
      update with the point offered to every observer in order. The update is
      sent even when the base move returned early because the game is over. */
  function MovePlayer(og: Controller, point: Point, p: Player, source: Option<string>, aliased: bool)
    : (r: (Controller, Player, seq<Delivery>))
    requires Valid(og.game)
    requires !og.game.gameOver ==> FindByName(og.game.players, p.name).Some? && PointIsInBounds(og.game, point.x, point.y)
    requires !og.game.gameOver && aliased ==> IsListedUnderName(og.game, p)
    ensures (r.0.game, r.1) == Grid.MovePlayer(og.game, point, p, aliased)
    ensures r.0.observers == og.observers
    ensures r.2 == Notify(og.observers, GetStateData("move", r.1, Some(point)), source)
  {
    var (g, p') := Grid.MovePlayer(og.game, point, p, aliased);
    (og.(game := g), p', Notify(og.observers, GetStateData("move", p', Some(point)), source))
  }

  /** Loading a configuration and reading it back gives the same
      configuration. */
  lemma GetConfigAfterLoad(og: Controller, data: Config)
    requires ObstaclesFit(data.obstacles, data.mapSize)
    ensures GetConfig(LoadConfigFromData(og, data)) == data
  {
  }

  /** A pushed update as its recipient reads it: the action, the source
      stamped with the recipient's id, a player text that decodes to `p`,
      and the point when one is given. */
  predicate CarriesUpdate(m: Message, action: string, recipient: ObserverId, p: Player, point: Option<Point>) {
    && "action" in m && m["action"] == Str(action)
    && "source" in m && m["source"] == Str(IdToString(recipient))
    && "player" in m && m["player"].Str? && Decode(m["player"].s) == Some(p)
    && (point.Some? ==> "point" in m && m["point"] == Pos(point.value))
  }

  /** Every observer other than the originator is sent the spawn, stamped
      with its own id, and the player it carries decodes to the spawned
      player. */
  lemma SpawnUpdateReachesOthers(og: Controller, p: Player, source: Option<string>, point: Point)
    requires WellShaped(og.game) && PointIsInBounds(og.game, point.x, point.y)
    requires ':' !in p.name && ':' !in p.id
    ensures var (_, p', log) := SpawnPlayer(og, p, source, point);
      && (forall i :: 0 <= i < |og.observers| && !IsOriginator(source, og.observers[i].id) ==>
            exists d :: d in log && d.observer == og.observers[i].id && d.via == og.observers[i].sender)
      && (forall d :: d in log ==> !IsOriginator(source, d.observer))
      && (forall d :: d in log ==> CarriesUpdate(d.message, "spawn", d.observer, p', None))
  {
    var (_, p', log) := SpawnPlayer(og, p, source, point);
    DecodeEncode(p');
    forall i | 0 <= i < |og.observers| && !IsOriginator(source, og.observers[i].id)
      ensures exists d :: d in log && d.observer == og.observers[i].id && d.via == og.observers[i].sender
    {
      assert DeliveryFor(og.observers[i], GetStateData("spawn", p', None)) in log;
    }
  }

  /** The same for a move: every other observer hears of it, the message
      names the target point, and its player decodes to the moved player. */
  lemma MoveUpdateReachesOthers(og: Controller, point: Point, p: Player, source: Option<string>, aliased: bool)
    requires Valid(og.game)
    requires !og.game.gameOver ==> FindByName(og.game.players, p.name).Some? && PointIsInBounds(og.game, point.x, point.y)
    requires !og.game.gameOver && aliased ==> IsListedUnderName(og.game, p)
    requires ':' !in p.name && ':' !in p.id
    ensures var (_, p', log) := MovePlayer(og, point, p, source, aliased);
      && (forall i :: 0 <= i < |og.observers| && !IsOriginator(source, og.observers[i].id) ==>
            exists d :: d in log && d.observer == og.observers[i].id && d.via == og.observers[i].sender)
      && (forall d :: d in log ==> !IsOriginator(source, d.observer))
      && (forall d :: d in log ==> CarriesUpdate(d.message, "move", d.observer, p', Some(point)))
  {
    var (_, p', log) := MovePlayer(og, point, p, source, aliased);
    DecodeEncode(p');
    forall i | 0 <= i < |og.observers| && !IsOriginator(source, og.observers[i].id)
      ensures exists d :: d in log && d.observer == og.observers[i].id && d.via == og.observers[i].sender
    {
      assert DeliveryFor(og.observers[i], GetStateData("move", p', Some(point))) in log;
    }
  }
}

=== FILE: optional.dfy ===
/** A value that may be absent: Python's None versus a present value. */
module Optional {

  datatype Option<+T> = None | Some(value: T)
}

=== FILE: server.dfy ===
/** server.py: the session registry (one observer per handshake, at the next
    push port) and `handle_client` as one atomic step from a request to the
    next server state, the reply, and the pushes sent meanwhile. */
module Server {
  import opened Optional
  import opened Grid
  import opened Networking
  import opened ObserverGame
  import opened PlayerCodec

  /** The port the server itself listens on. */
  const ServerPort := 9000
  /** The value the port counter starts from. */
  const InitialClientPort := 9000
  /** The address `handle_client` registers every client under. */
  const ClientHost := "localhost"

  /** The actions `handle_client` dispatches on by name. */
  predicate IsDispatchedAction(action: string) {
    action in {"handshake", "spawn", "move", "test"}
  }

  /** A request after its dictionary has been read: the players travel in
      their encoded text form. `Other` is any action the dispatch does not
      name, one for which `IsDispatchedAction` fails. The target of a move is
      whatever the client sent; the server ignores it. */
  datatype Request =
    | Handshake(source: string)
    | Spawn(source: string, player: string)
    | Move(source: string, player: string, target: Option<Point>)
    | Test(source: string, payload: Message)
    | Other(action: string, source: string)

  /** The reply written back. `NoReply` is a handler that raised before
      writing: a player text that does not decode, a spawn on a 0×0 board
      (where drawing a random square raises), or a move the engine cannot
      apply; the server goes on serving. `NoProgress` is a request that never
      gets an answer because the server's single event loop is stuck: the
      spawn that starts the endless search for an empty square on a full
      board, and every request after it. */
  datatype Response =
    | Status(status: string)
    | HandshakeReply(config: Config, port: int)
    | SpawnReply(point: Point)
    | Echo(request: Request)
    | NoReply
    | NoProgress

  /** The module globals of server.py, plus whether the event loop is stuck
      in an endless spawn-point search, after which nothing is served. */
  datatype Server = Server(controller: Controller, clients: seq<string>, nextClientPort: int, frozen: bool)

  /** The server as `main` leaves it, with the board built from the given
      configuration rather than from random obstacles. */
  function Init(data: Config): (s: Server)
    requires ObstaclesFit(data.obstacles, data.mapSize)
    ensures s.nextClientPort == InitialClientPort && s.clients == [] && s.controller.observers == []
    ensures !s.frozen
    ensures GetConfig(s.controller) == data
    ensures s.controller.game.turn == 1 && s.controller.game.players == [] && !s.controller.game.gameOver
    ensures Valid(s.controller.game)
    ensures forall x, y :: 0 <= x < data.mapSize && 0 <= y < data.mapSize ==>
      s.controller.game.board[x][y] == if Point(x, y) in data.obstacles then Obstacle else Empty
  {
    Server(LoadConfigFromData(NewController(data.mapSize, data.cellLifetime), data), [], InitialClientPort, false)
  }

  /** `get_next_client_port`: the counter moves up by one and its new value is
      the port handed out. */
  function GetNextClientPort(s: Server): (r: (Server, int))
    ensures r.1 == s.nextClientPort + 1 && r.1 > s.nextClientPort
    ensures r.0 == s.(nextClientPort := r.1)
  {
    var port := s.nextClientPort + 1;
    (s.(nextClientPort := port), port)
  }

  /** `add_client`: one more observer for `source` at the next port, and
      `source` appended to the client list; nothing is deduplicated. */
  function AddClient(s: Server, source: string, address: string): (r: Server)
    ensures r.nextClientPort == s.nextClientPort + 1
    ensures r.controller.game == s.controller.game
    ensures r.controller.observers ==
      s.controller.observers + [Observer(Named(source), TcpSender(address, r.nextClientPort))]
    ensures r.clients == s.clients + [source]
  {
    var (s1, port) := GetNextClientPort(s);
    var o := NewObserver(Named(source), None, port, address);
    s1.(controller := AddObserver(s1.controller, o), clients := s1.clients + [source])
  }

  /** `get_handshake_config`: the configuration plus the current counter,
      which is the port most recently handed out. */
  function GetHandshakeConfig(s: Server): (r: Response)
    ensures r.HandshakeReply? && r.port == s.nextClientPort
    ensures r.config == GetConfig(s.controller)
  {
    HandshakeReply(GetConfig(s.controller), s.nextClientPort)
  }

  predicate IsOpenPoint(g: Game, p: Point)
    requires WellShaped(g)
  {
    PointIsInBounds(g, p.x, p.y) && g.board[p.x][p.y] == Empty
  }

  ghost predicate HasOpenPoint(g: Game)
    requires WellShaped(g)
  {
    exists x, y :: 0 <= x < g.mapSize && 0 <= y < g.mapSize && g.board[x][y] == Empty
  }

  /** The fixed point every server-side move is applied to. */
  const MovePoint := Point(0, 1)

  /** Whether the move handler raises: the sender's name is not listed, or
      the board is too small to hold the fixed point. Neither check is
      reached once the game is over. */
  predicate MoveRaises(g: Game, p: Player) {
    !g.gameOver && (FindByName(g.players, p.name).None? || !PointIsInBounds(g, MovePoint.x, MovePoint.y))
  }

  /** `handle_client` for one request. `pick` is where the random spawn-point
      search stops: an empty cell whenever the board has one. A spawn on a
      board of size 0 raises at the first random draw; a spawn on a full board
      of positive size searches forever and freezes the server. */
  function Step(s: Server, req: Request, pick: Point): (r: (Server, Response, seq<Delivery>))
    requires Valid(s.controller.game)
    requires req.Other? ==> !IsDispatchedAction(req.action)
    requires req.Spawn? && HasOpenPoint(s.controller.game) ==> IsOpenPoint(s.controller.game, pick)
    ensures Valid(r.0.controller.game)
    ensures r.0.controller.game.gameOver == s.controller.game.gameOver
    ensures s.frozen ==> r == (s, NoProgress, [])
    ensures r.0.frozen <==> (s.frozen ||
      (req.Spawn? && Decode(req.player).Some? && s.controller.game.mapSize > 0 && !HasOpenPoint(s.controller.game)))
    ensures r.1 == NoProgress ==> r.0.frozen
    ensures !s.frozen && req.Handshake? ==>
      && r.0 == AddClient(s, req.source, ClientHost)
      && r.1 == HandshakeReply(GetConfig(s.controller), s.nextClientPort + 1)
      && r.2 == []
    ensures !req.Handshake? ==>
      r.0.clients == s.clients && r.0.nextClientPort == s.nextClientPort
      && r.0.controller.observers == s.controller.observers
    ensures !s.frozen && (req.Spawn? || req.Move?) && Decode(req.player).None? ==> r == (s, NoReply, [])
    ensures !s.frozen && req.Spawn? && Decode(req.player).Some? ==>
      var p := Decode(req.player).value;
      if s.controller.game.mapSize == 0 then r == (s, NoReply, [])
      else if HasOpenPoint(s.controller.game) then
        && r.1 == SpawnReply(pick)
        && (r.0.controller, p.(position := Some(pick)), r.2)
           == ObserverGame.SpawnPlayer(s.controller, p, Some(req.source), pick)
      else r == (s.(frozen := true), NoProgress, [])
    ensures !s.frozen && req.Move? && Decode(req.player).Some? ==>
      var p := Decode(req.player).value;
      if MoveRaises(s.controller.game, p) then r == (s, NoReply, [])
      else
        && r.1 == Status("good")
        && r.0.controller.game == Grid.MovePlayer(s.controller.game, MovePoint, p, false).0
        && r.2 == ObserverGame.MovePlayer(s.controller, MovePoint, p, Some(req.source), false).2
    ensures !s.frozen && req.Test? ==> r == (s, Echo(req), [])
    ensures !s.frozen && req.Other? ==> r == (s, Status("good"), [])
  {
    if s.frozen then (s, NoProgress, [])
    else
    match req
    case Handshake(source) =>
      var s1 := AddClient(s, source, ClientHost);
      (s1, GetHandshakeConfig(s1), [])
    case Spawn(source, text) =>
      if Decode(text).None? then (s, NoReply, [])
      else
      var player := Decode(text).value;
      if s.controller.game.mapSize == 0 then (s, NoReply, [])
      else if !IsOpenPoint(s.controller.game, pick) then (s.(frozen := true), NoProgress, [])
      else
        var (og, _, log) := ObserverGame.SpawnPlayer(s.controller, player, Some(source), pick);
        (s.(controller := og), SpawnReply(pick), log)
    case Move(source, text, _) =>
      if Decode(text).None? then (s, NoReply, [])
      else
      var player := Decode(text).value;
      if MoveRaises(s.controller.game, player) then (s, NoReply, [])
      else
        var (og, _, log) := ObserverGame.MovePlayer(s.controller, MovePoint, player, Some(source), false);
        (s.(controller := og), Status("good"), log)
    case Test(_, _) => (s, Echo(req), [])
    case Other(_, _) => (s, Status("good"), [])
  }

  // ---------------------------------------------------------------------------
  // The registry invariant

  /** Observer `i` belongs to client `i`, is reached on localhost, and the
      push ports handed out so far are strictly increasing, above the
      starting value and no larger than the counter. */
  predicate RegistryInv(s: Server) {
    var obs := s.controller.observers;
    && s.nextClientPort >= InitialClientPort
    && |obs| == |s.clients|
    && (forall i :: 0 <= i < |obs| ==>
          obs[i].id == Named(s.clients[i]) && obs[i].sender.host == ClientHost
          && InitialClientPort < obs[i].sender.port <= s.nextClientPort)
    && (forall i, j :: 0 <= i < j < |obs| ==> obs[i].sender.port < obs[j].sender.port)
  }

  /** What holds of every server state reachable from `Init`. */
  predicate Inv(s: Server) {
    Valid(s.controller.game) && !s.controller.game.gameOver && RegistryInv(s)
  }

  lemma InitSatisfiesInv(data: Config)
    requires ObstaclesFit(data.obstacles, data.mapSize)
    ensures Inv(Init(data))
  {
  }

  /** Every request keeps the invariant; in particular the game-over flag is
      never set, since the move handler only reads it. */
  lemma StepPreservesInv(s: Server, req: Request, pick: Point)
    requires Inv(s)
    requires req.Other? ==> !IsDispatchedAction(req.action)
    requires req.Spawn? && HasOpenPoint(s.controller.game) ==> IsOpenPoint(s.controller.game, pick)
    ensures Inv(Step(s, req, pick).0)
  {
  }

  /** No two registered observers share a push port, and none of them is
      given the server's own port. */
  lemma PushPortsDistinct(s: Server)
    requires Inv(s)
    ensures forall i, j :: 0 <= i < |s.controller.observers| && 0 <= j < |s.controller.observers| && i != j ==>
      s.controller.observers[i].sender.port != s.controller.observers[j].sender.port
    ensures forall i :: 0 <= i < |s.controller.observers| ==> s.controller.observers[i].sender.port != ServerPort
  {
  }

  /** A handshake hands out a port above every port handed out before, and
      the reply carries exactly the port of the new observer. */
  lemma HandshakePortIsFresh(s: Server, source: string, pick: Point)
    requires Inv(s) && !s.frozen
    ensures var (s', resp, _) := Step(s, Handshake(source), pick);
      && resp.HandshakeReply?
      && |s'.controller.observers| == |s.controller.observers| + 1
      && Last(s'.controller.observers) == Observer(Named(source), TcpSender(ClientHost, resp.port))
      && resp.port != ServerPort
      && forall i :: 0 <= i < |s.controller.observers| ==> s.controller.observers[i].sender.port < resp.port
  {
  }

  function Last<T>(xs: seq<T>): T
    requires |xs| > 0
  {
    xs[|xs| - 1]
  }

  /** The first client to shake hands is given port 9001. */
  lemma FirstClientGetsPort9001(data: Config, source: string, pick: Point)
    requires ObstaclesFit(data.obstacles, data.mapSize)
    ensures Step(Init(data), Handshake(source), pick).1 == HandshakeReply(data, 9001)
  {
  }

  /** Two handshakes from one source register it twice, on two ports. */
  lemma RepeatedHandshakeRegistersTwice(s: Server, source: string, pick: Point)
    requires Inv(s) && !s.frozen
    ensures var s1 := Step(s, Handshake(source), pick).0;
      var s2 := Step(s1, Handshake(source), pick).0;
      var n := |s.controller.observers|;
      && |s2.controller.observers| == n + 2
      && s2.controller.observers[n].id == s2.controller.observers[n + 1].id == Named(source)
      && s2.controller.observers[n].sender.port != s2.controller.observers[n + 1].sender.port
      && s2.clients == s.clients + [source, source]
  {
  }

  /** The target a client asks to move to makes no difference. */
  lemma MoveIgnoresTarget(s: Server, source: string, text: string, t1: Option<Point>, t2: Option<Point>, pick: Point)
    requires Valid(s.controller.game)
    ensures Step(s, Move(source, text, t1), pick) == Step(s, Move(source, text, t2), pick)
  {
  }

  /** A handled move is pushed to every registered observer except the ones
      registered under the requesting source, each push stamped with its
      recipient's id. */
  lemma MovePushedToOthersOnly(s: Server, source: string, text: string, t: Option<Point>, pick: Point)
    requires Inv(s) && !s.frozen && Decode(text).Some? && !MoveRaises(s.controller.game, Decode(text).value)
    ensures var (_, resp, log) := Step(s, Move(source, text, t), pick);
      && resp == Status("good")
      && (forall i :: 0 <= i < |s.clients| && s.clients[i] != source ==>
            exists d :: d in log && d.observer == Named(s.clients[i]))
      && (forall d :: d in log ==> (d.observer != Named(source)
            && d.message["source"] == Str(IdToString(d.observer))))
  {
  }

  /** The server's move never touches its own player list entries: a decoded
      player is a separate object, so the listed players keep their spawn
      position and turn count, and only removals can happen. */
  lemma ServerMoveLeavesListedPlayersAsSpawned(s: Server, source: string, text: string, t: Option<Point>, pick: Point)
    requires Inv(s)
    ensures forall q :: q in Step(s, Move(source, text, t), pick).0.controller.game.players ==>
      q in s.controller.game.players
  {
  }

  /** A spawn on a full board of positive size never answers, and from then
      on no request is answered either, a handshake included: the whole
      server is stuck, not just the client that asked. */
  lemma FullBoardSpawnFreezesServer(s: Server, source: string, text: string, pick: Point, later: Request, laterPick: Point)
    requires Valid(s.controller.game) && !s.frozen
    requires Decode(text).Some? && s.controller.game.mapSize > 0 && !HasOpenPoint(s.controller.game)
    requires later.Other? ==> !IsDispatchedAction(later.action)
    ensures var (s1, resp, log) := Step(s, Spawn(source, text), pick);
      && resp == NoProgress && log == []
      && Step(s1, later, laterPick) == (s1, NoProgress, [])
  {
  }

  /** On a board of size 0 a spawn raises instead of searching: no reply is
      written, nothing changes, and the next handshake is served as usual. */
  lemma ZeroBoardSpawnRaises(s: Server, source: string, text: string, pick: Point, laterSource: string)
    requires Inv(s) && !s.frozen && s.controller.game.mapSize == 0
    ensures Step(s, Spawn(source, text), pick) == (s, NoReply, [])
    ensures Step(s, Handshake(laterSource), pick).1 == HandshakeReply(GetConfig(s.controller), s.nextClientPort + 1)
  {
  }
}

=== FILE: text.dfy ===
/** The string helpers the player encoding relies on: Python's str.split on a
    single character, and decimal formatting and parsing of integers. */
module Text {
  import opened Optional

  /** `s.split(sep)`: the pieces between occurrences of `sep`, empty pieces
      included, so there is always at least one piece. */
  function Split(s: string, sep: char): (parts: seq<string>)
    ensures |parts| >= 1
    ensures sep !in s ==> parts == [s]
    ensures forall i :: 0 <= i < |parts| ==> sep !in parts[i]
    decreases |s|
  {
    if |s| == 0 then [""]
    else
      var rest := Split(s[1..], sep);
      if s[0] == sep then [""] + rest
      else
        assert sep !in s ==> rest == [s[1..]] && [s[0]] + s[1..] == s;
        [[s[0]] + rest[0]] + rest[1..]
  }

  /** Splitting at a separator that is the first one in the string yields the
      text before it followed by the pieces of the text after it. */
  lemma {:induction false} SplitAtFirst(a: string, sep: char, b: string)
    requires sep !in a
    ensures Split(a + [sep] + b, sep) == [a] + Split(b, sep)
    decreases |a|
  {
    if |a| == 0 {
      assert a + [sep] + b == [sep] + b;
      assert ([sep] + b)[1..] == b;
    } else {
      var s := a + [sep] + b;
      assert s[0] == a[0];
      assert s[1..] == a[1..] + [sep] + b;
      SplitAtFirst(a[1..], sep, b);
      assert [a[0]] + a[1..] == a;
    }
  }

  predicate IsDigit(c: char) {
    '0' <= c <= '9'
  }

  function DigitChar(d: nat): (c: char)
    requires d < 10
    ensures IsDigit(c)
  {
    ('0' as int + d) as char
  }

  function DigitValue(c: char): (d: nat)
    requires IsDigit(c)
    ensures d < 10 && DigitChar(d) == c
  {
    c as int - '0' as int
  }

  /** Python's `str(n)` for a natural number: decimal digits, no leading zero. */
  function NatToString(n: nat): (s: string)
    ensures |s| >= 1
    ensures forall i :: 0 <= i < |s| ==> IsDigit(s[i])
    decreases n
  {
    if n < 10 then [DigitChar(n)] else NatToString(n / 10) + [DigitChar(n % 10)]
  }

  /** Python's `str(i)` for an integer: a minus sign before negative values. */
  function IntToString(i: int): (s: string)
    ensures |s| >= 1
    ensures forall k :: 0 <= k < |s| ==> IsDigit(s[k]) || s[k] == '-'
  {
    if i < 0 then "-" + NatToString(-i) else NatToString(i)
  }

  /** Reads a non-empty run of decimal digits; anything else is rejected. */
  function ParseNat(s: string): (r: Option<nat>)
    ensures r.Some? ==> |s| >= 1 && forall i :: 0 <= i < |s| ==> IsDigit(s[i])
    decreases |s|
  {
    if |s| == 0 || !IsDigit(s[|s| - 1]) then None
    else if |s| == 1 then Some(DigitValue(s[0]))
    else
      match ParseNat(s[..|s| - 1])
      case None => None
      case Some(high) => Some(high * 10 + DigitValue(s[|s| - 1]))
  }

  /** `int(s)` restricted to an optional minus sign followed by digits; any
      other text is the ValueError case and gives None. */
  function ParseInt(s: string): (r: Option<int>)
  {
    if |s| >= 1 && s[0] == '-' then
      match ParseNat(s[1..])
      case None => None
      case Some(n) => Some(-(n as int))
    else
      match ParseNat(s)
      case None => None
      case Some(n) => Some(n as int)
  }

  lemma {:induction false} ParseNatOfNatToString(n: nat)
    ensures ParseNat(NatToString(n)) == Some(n)
    decreases n
  {
    if n >= 10 {
      var s := NatToString(n);
      assert s == NatToString(n / 10) + [DigitChar(n % 10)];
      assert s[..|s| - 1] == NatToString(n / 10);
      ParseNatOfNatToString(n / 10);
      assert DigitValue(s[|s| - 1]) == n % 10;
    }
  }

  /** Formatting an integer and reading it back gives the same integer. */
  lemma ParseIntOfIntToString(i: int)
    ensures ParseInt(IntToString(i)) == Some(i)
  {
    if i < 0 {
      var n := NatToString(-i);
      assert IntToString(i) == "-" + n;
      assert ("-" + n)[0] == '-' && ("-" + n)[1..] == n;
      ParseNatOfNatToString(-i);
    } else {
      ParseNatOfNatToString(i);
    }
  }
}
